=== FILE: README.md ===
# Basic calculator: the expression state machine in Dafny

This project models the core of a browser calculator: the state machine in
`calculater/script.js` that turns key presses into an operand and an
expression history, and evaluates the expression on demand. The state is
one immutable record:

- `currentInput`: the operand being typed, the last result, or the sentinel "Error".
- `expressionHistory`: the committed operands and operators, such as "5 + ".
- `shouldResetScreen`: the next digit starts a fresh operand.
- `hasError`: the calculator is in its error state.

`clear`, `deleteNumber`, `appendNumber`, `chooseOperation` and `compute` are
pure functions from state to state. `getDisplayNumber` and the non-DOM part
of `updateDisplay` are pure projections to the two display lines.

Two pieces of JavaScript semantics are parameters, not definitions:

- The evaluator. `compute` calls `Function('"use strict";return (' + e + ')')()`,
  then the `isFinite`/`isNaN` test, then `toString`. This is modelled as
  `eval: string -> Option<string>`, where None means the code threw or the
  value is not finite. Lemmas that need facts about it state them as
  preconditions. Examples are `eval("") == None`, since JavaScript rejects
  `return ()`, and `eval("5 + 3") == Some("8")`.
- The integer rendering. `toLocaleString('en', …)` of the parsed integer part
  is a parameter `formatInteger`. The `isNaN(parseFloat(…))` test in front of
  it is modelled exactly. `Grouping.GroupThousands` is English comma
  grouping, the rendering for canonical integer numerals.

Modules, one per file:

- `Calculator`: the state and transitions.
- `Validation`: the two regular-expression guards of `compute`.
- `JsText`: `trim`, `slice`, `includes`, `split`.
- `Display`: the projection.
- `Grouping`: thousands grouping.
- `Session`: key dispatch, runs of presses and the state invariant.
- `Typing`: operand entry and delete.
- `ComputeFacts` and `DisplayFacts`: consequences of the transitions.
- `Scenarios`: whole key sequences.

## Behaviour worth knowing

- Repeated operators overwrite the history. "5 + -" leaves the history
  "0 - ". The first operator press sets `shouldResetScreen`, so the second
  press takes the overwrite branch (`ComputeFacts.RepeatedOperatorOverwrites`,
  `Scenarios.FivePlusMinus`).
- Pressing equals again leaves a result unchanged only when the result is not
  "0", passes both guards and evaluates to itself
  (`ComputeFacts.RecomputeResult`). A result of
  "0" looks the same as the placeholder of a pending operand. So a second
  equals assembles the empty expression and enters the error state
  (`Scenarios.ZeroResultRecomputedFails`).
- "1 + =" evaluates "1 ", not "1". The history is trimmed before the
  operator is dropped, and the space left behind is not trimmed again
  (`ComputeFacts.StripCommittedHistory`).
- After an operator or a result, '.' starts the operand "." rather than "0.".
  The "0" is kept in front of a decimal point only when the placeholder is
  being typed over (`Typing.FreshOperandAfterReset`). The display then shows
  ".5" (`DisplayFacts.LeadingPointShowsBare`).
- Division by zero, a character outside the allowed set, an evaluation that
  throws and a non-finite result all lead to the same error state
  (`Calculator.Fail`).
- Deleting an operand down to its last character does not undo the
  operator. "5 * 3 ⌫" shows the same as "5 *", but the operand "0" is now
  being typed rather than pending. Equals then evaluates "5 * 0" instead of
  "5 ". "5 / 3 ⌫ =" trips the division guard, and "5 / =" does not
  (`ComputeFacts.DeletedOperandIsEvaluated`, `ComputeFacts.TypedZeroIsNotPendingZero`,
  `Scenarios.FiveTimesThreeDelete`, `Scenarios.FiveDividedThreeDeleteEquals`).
- A result the evaluator prints in exponent form ("1e+21", "1e-7") makes the
  next equals enter the error state, even though the text evaluates back to
  itself: the 'e' is outside the allowed characters. An expression chained
  onto such a result by an operator fails the same way
  (`ComputeFacts.DisallowedOperandRejected`,
  `ComputeFacts.DisallowedHistoryRejected`, `Scenarios.ExponentResultPoisons`).

## Model

| member | source | states |
|---|---|---|
| Calculator.Clear | calculater/script.js:19-24 | all-clear restores the placeholder operand, an empty history and both flags off |
| Calculator.DeleteNumber | calculater/script.js:27-38 | in the error state or with a fresh operand pending it is a full clear; otherwise the operand loses exactly its last character, a one-character operand becomes "0", the history is kept and a non-empty operand stays non-empty |
| Calculator.AppendNumber | calculater/script.js:40-53 | both flags end off; the history survives except after an error (implicit clear); a second decimal point is ignored; a digit replaces a lone "0"; otherwise the character is appended to the operand it starts from ("0" after an error, "" after an operator or result, the current operand otherwise) |
| Calculator.EntryOperand | calculater/script.js:41-45 | the operand a digit extends is "0" after an error, "" after an operator or result, and the current operand otherwise |
| Calculator.Segment | calculater/script.js:59-63 | a committed segment is the operand followed by the operator between single spaces |
| Calculator.ChooseOperation | calculater/script.js:55-68 | nothing happens in the error state; otherwise the operand becomes "0" with a fresh operand pending, and the segment replaces the history when a fresh operand was pending or is appended to it otherwise |
| Calculator.StripTrailingOperator | calculater/script.js:84-88 | the result is the trimmed history, or that less its last character; the character is dropped exactly when it is one of "+ - * / %" (spaces included), and "" stays "" |
| Calculator.AssembleExpression | calculater/script.js:73-89 | the expression is history plus operand unless the operand is the untouched "0" of a pending fresh operand; in that case it is the history trimmed, less a trailing operator (`StripTrailingOperator`), and no longer than the history |
| Calculator.Fail | calculater/script.js:119-122 | a rejection sets the sentinel and the error flag and keeps the history and the reset flag |
| Calculator.Compute | calculater/script.js:70-124 | nothing happens in the error state; otherwise the error state is entered exactly when a guard rejects the assembled expression or the evaluator fails; on success the operand is the evaluator's text, the history is empty and a fresh operand is pending |
| Validation.DivisionByZeroAt | calculater/script.js:98 | `/\/ 0(?!\.)/` matches at one position: a slash, a space and a zero not followed by a decimal point |
| Validation.ScanDivisionByZero | calculater/script.js:98 | the scan finds a match exactly when some "/ 0" is not followed by '.' |
| Validation.EndsWithDivisionByZero | calculater/script.js:98 | the anchored second pattern: the expression ends in "/ 0" |
| Validation.DivisionByZero | calculater/script.js:98 | the division guard is the disjunction of both patterns as written |
| Validation.DivisionByZeroIff | calculater/script.js:98 | the anchored second pattern adds nothing: the guard holds exactly when some "/ 0" is not followed by '.' |
| Validation.AllowedChar | calculater/script.js:105 | the character class `[0-9.+\-*/% ]`: a digit, a decimal point, one of the five operators or a space |
| Validation.ScanDisallowed | calculater/script.js:105 | the scan finds a match exactly when some character lies outside the digits, `.`, `+`, `-`, `*`, `/`, `%` and space |
| Validation.HasDisallowedChar | calculater/script.js:105 | the invalid-input guard is the scan from the first character |
| Validation.NoSlashNoDivisionByZero | calculater/script.js:98-99 | an expression without '/' never trips the division guard |
| Validation.AllAllowedPasses | calculater/script.js:105-106 | an expression of allowed characters passes the input guard |
| Validation.Rejected | calculater/script.js:98-107 | the assembled expression is refused exactly when either throwing guard fires |
| JsText.IsJsWhitespace | calculater/script.js:84 | the ECMAScript WhiteSpace and LineTerminator code points that `trim` and `parseFloat` skip |
| JsText.TrimStart | calculater/script.js:84 | only leading whitespace is removed, and what remains starts with a non-blank |
| JsText.TrimEnd | calculater/script.js:84 | only trailing whitespace is removed, and what remains ends with a non-blank |
| JsText.Trim | calculater/script.js:84 | `trim` yields an infix bounded by non-blanks with only whitespace outside it |
| JsText.TrimBothEnds | calculater/script.js:84 | cutting a whitespace prefix and then a whitespace suffix leaves an infix with only whitespace outside it |
| JsText.SliceLast | calculater/script.js:85 | `slice(-1)` is the last character, or "" for "" |
| JsText.DropLast | calculater/script.js:87 | `slice(0, -1)` plus the last character gives the text back, and "" stays "" |
| JsText.IncludesChar | calculater/script.js:86 | `includes` of a one-character needle is membership |
| JsText.IncludesSliceLast | calculater/script.js:85-86 | testing the last character of "" always succeeds; otherwise it is membership of the last character |
| JsText.IncludesEmpty | calculater/script.js:86 | every text includes "" |
| JsText.Includes | calculater/script.js:86 | `includes` holds exactly when the needle occurs at some position of the text |
| JsText.Split | calculater/script.js:129-130 | `split` yields one more piece than there are separators, no piece holds a separator, and joining the pieces gives the text back |
| Display.IntegerDisplay | calculater/script.js:129-137 | an integer part `parseFloat` reads as NaN renders as "", and any other is grouped |
| Display.ParseFloatIsNaN | calculater/script.js:129-133 | `isNaN(parseFloat(p))`: after leading whitespace and an optional sign, no digit, no point followed by a digit and no "Infinity" |
| Display.GetDisplayNumber | calculater/script.js:126-144 | the sentinel in error; with no decimal point, the integer rendering; with one, the integer rendering, the point and the fractional text unchanged |
| Display.SplitAtDot | calculater/script.js:129-130 | pieces 0 and 1 of `split('.')` are the text before the first point and, with a single point, the text after it |
| Display.UpdateDisplay | calculater/script.js:146-158 | the error state shows ("Error", "") and hides the kept history; otherwise it shows the formatted operand and the history |
| Grouping.GroupThousands | calculater/script.js:136 | English grouping adds one comma per full group of three before the last group, and a character is a comma exactly when it is a multiple of four places from the end |
| Grouping.GroupThousandsRoundTrip | calculater/script.js:136 | grouping only inserts commas: removing them gives the digits back |
| Grouping.GroupSevenDigits | calculater/script.js:136 | 1234567 groups as "1,234,567" |
| Session.Step | calculater/script.js:162-206 | all-clear resets, a digit press always leaves the error state, and an operator outside the error state leaves "0" with a fresh operand pending |
| Session.RunSnoc | calculater/script.js:162-206 | presses are handled one after the other |
| Session.RunAppend | calculater/script.js:162-206 | running two press sequences in turn is running their concatenation |
| Session.ClearInv | calculater/script.js:19-24 | the initial state satisfies the invariant |
| Session.AppendInv | calculater/script.js:40-53 | a digit or point press keeps the invariant: one decimal point at most, a typed operand of digits and points only |
| Session.ExtendOperand | calculater/script.js:46-50 | a digit, or a first decimal point, keeps an operand of digits with at most one point |
| Session.DeleteInv | calculater/script.js:27-38 | delete keeps the invariant, so the operand is never empty |
| Session.ShortenOperand | calculater/script.js:35 | dropping the last character keeps an operand of digits with at most one point, non-empty and not the sentinel |
| Session.ChooseInv | calculater/script.js:55-68 | an operator press keeps the invariant: a non-empty history ends with an operator between single spaces |
| Session.CommitShape | calculater/script.js:59-63 | committing a blank-free operand and an operator behind an empty or committed history gives a committed history |
| Session.ComputeInv | calculater/script.js:70-124 | equals keeps the invariant whenever the evaluator returns number texts; error and sentinel go together |
| Session.FailInv | calculater/script.js:119-122 | the error state keeps the invariant |
| Session.StepInv | calculater/script.js:162-206 | every valid press keeps the invariant |
| Session.RunInv | calculater/script.js:11-24 | every run of valid presses from the initial state ends in a state satisfying the invariant |
| Typing.DropLeadingZeros | calculater/script.js:47-48 | only leading zeros are removed, and the rest does not start with a zero |
| Typing.DropLeadingZerosSnoc | calculater/script.js:47-50 | one more typed character starts afresh after only zeros (a zero staying suppressed) and is kept otherwise |
| Typing.TypedOperandNoPoint | calculater/script.js:46-50 | an entry without a decimal point builds an operand without one |
| Typing.TypedOperandSnocFromZeros | calculater/script.js:47-50 | after only zeros the operand is the placeholder, a point then gives "0." and any other character stands alone |
| Typing.TypedOperandSnocAfterDigits | calculater/script.js:47-50 | once a character other than a zero is typed, the operand is not the placeholder and every further character is appended |
| Typing.TypedOperandSnoc | calculater/script.js:46-51 | the reference operand grows by the same replace-"0" and append rules that `appendNumber` applies |
| Typing.TypingFromPlaceholder | calculater/script.js:40-53 | onto the placeholder of an operand being typed (no fresh operand pending), typing digits and at most one point onto "0" gives the typed text with leading zeros suppressed, "0" kept before a leading point, and nothing else changed |
| Typing.TypedOperandDelete | calculater/script.js:32-36 | the reference operand of a shorter entry is the longer one less its last character, or "0" |
| Typing.DeleteAfterTyping | calculater/script.js:27-38 | onto the placeholder of an operand being typed (no fresh operand pending), delete after typing is the same as not typing the last character |
| Typing.DeletesUndoTyping | calculater/script.js:27-38 | onto the placeholder of an operand being typed (no fresh operand pending), n deletes after typing equal typing without the last n characters, down to "0" |
| Typing.SecondDecimalPointIgnored | calculater/script.js:46 | a point typed into an operand that has one leaves the state unchanged |
| Typing.DecimalPointIdempotent | calculater/script.js:46 | from any state, pressing '.' twice is the same as pressing it once |
| Typing.AppendAfterError | calculater/script.js:41 | a press in the error state acts on the cleared state, and the error and history are gone |
| Typing.FreshOperandAfterReset | calculater/script.js:42-45 | after an operator or result the pressed character alone becomes the operand, with no leading "0" before a point, and the history is kept |
| ComputeFacts.TrimHistory | calculater/script.js:84 | trimming a committed history drops exactly its final space |
| ComputeFacts.StripCommittedHistory | calculater/script.js:84-88 | the strip turns "p op " into "p " |
| ComputeFacts.OperatorEndIncluded | calculater/script.js:85-86 | a text ending in one of the five operators passes the `includes` test of the strip |
| ComputeFacts.StripEmptyHistory | calculater/script.js:84-88 | the strip of the empty history is the empty expression |
| ComputeFacts.AssembleAfterOperator | calculater/script.js:78-89 | equals right after an operator evaluates the history less its last two characters |
| ComputeFacts.ComputeAfterZeroResult | calculater/script.js:78-89 | equals on a computed "0" enters the error state when the evaluator rejects "" |
| ComputeFacts.RecomputeResult | calculater/script.js:78-79 | equals on a result other than "0" that passes both guards and evaluates to itself changes nothing |
| ComputeFacts.DisallowedSurvivesPrefix | calculater/script.js:105 | a disallowed character in the operand is still one after any history is put in front |
| ComputeFacts.DisallowedOperandRejected | calculater/script.js:105-106 | an operand with a character outside the alphabet, such as the exponent in "1e+21", makes equals fail |
| ComputeFacts.DisallowedHistoryRejected | calculater/script.js:78-106 | a character outside the alphabet already in the history, with an operand being typed behind it, makes equals fail |
| ComputeFacts.RepeatedOperatorOverwrites | calculater/script.js:57-60 | a second operator right after the first leaves the history "0 op " |
| ComputeFacts.DeletedOperandIsEvaluated | calculater/script.js:27-38 | deleting a one-character operand leaves "0" as an operand being typed, with no fresh operand pending, so equals evaluates the history followed by "0" |
| ComputeFacts.TypedZeroIsNotPendingZero | calculater/script.js:78-88 | behind a committed history, a typed "0" assembles history plus "0", while a pending "0" assembles the history less its operator |
| DisplayFacts.EmptyIntegerPartIsNaN | calculater/script.js:129-134 | the empty integer part is NaN to `parseFloat` |
| DisplayFacts.DigitsAreNumbers | calculater/script.js:129-136 | a non-empty digit string is a number to `parseFloat` |
| DisplayFacts.FractionSplitUnique | calculater/script.js:129-130 | a text has at most one position for its only decimal point |
| DisplayFacts.OnlyPointBetween | calculater/script.js:129-130 | a point between two point-free texts is the only one, and the text splits around it into exactly those two |
| DisplayFacts.FractionVerbatim | calculater/script.js:139-140 | "i.f" displays as the integer rendering of i, a point and f unchanged |
| DisplayFacts.LeadingPointShowsBare | calculater/script.js:133-140 | ".f" displays as ".f" |
| DisplayFacts.GroupedDisplay | calculater/script.js:136-143 | a canonical integer shows grouped, and with a trailing point it keeps the point |
| DisplayFacts.IntegerShownIsNotSentinel | calculater/script.js:133-142 | an operand without a point is never shown as "Error" when the formatter never prints it |
| DisplayFacts.FractionShownIsNotSentinel | calculater/script.js:139-140 | an operand with one point is never shown as "Error", whatever the formatter prints |
| DisplayFacts.ErrorShownIffError | calculater/script.js:147-153 | under the invariant, "Error" is shown exactly in the error state, with an empty history line, provided the integer formatter never prints "Error" |
| Scenarios.Accepted | calculater/script.js:98-106 | an expression of digits, spaces and operators other than '/' passes both guards |
| Scenarios.FivePlusThree | calculater/script.js:40-124 | 5 + 3 = gives "8", an empty history and a fresh operand pending |
| Scenarios.FourDividedByZero | calculater/script.js:98-122 | 4 / 0 = enters the error state whatever the evaluator says, shows only "Error", and all-clear restores the initial state |
| Scenarios.FourDividedByTypedZero | calculater/script.js:40-68 | 4 / 0 builds the history "4 / " with the operand "0" being typed |
| Scenarios.OnePlus | calculater/script.js:55-68 | 1 + leaves "0", the history "1 + " and a fresh operand pending |
| Scenarios.ComputeAccepted | calculater/script.js:109-117 | an expression both guards pass and the evaluator accepts becomes the operand |
| Scenarios.OnePlusAssembles | calculater/script.js:84-88 | with the history "1 + " and "0" pending, the expression is "1 " |
| Scenarios.OneSpaceAccepted | calculater/script.js:98-106 | "1 " passes both guards |
| Scenarios.OnePlusEquals | calculater/script.js:78-117 | 1 + = gives "1" |
| Scenarios.FiveMinusFive | calculater/script.js:40-107 | 5 - 5 builds "5 - 5", which passes both guards |
| Scenarios.ZeroResultRecomputedFails | calculater/script.js:78-122 | 5 - 5 = = ends in the error state |
| Scenarios.FivePlusMinus | calculater/script.js:55-68 | 5 + - leaves the history "0 - " |
| Scenarios.FiveOpThreeDelete | calculater/script.js:27-68 | 5 op 3 and a delete leave the operand "0" being typed behind "5 op " |
| Scenarios.FiveTimesThreeDelete | calculater/script.js:27-89 | 5 * 3 and a delete assemble "5 * 0" on equals |
| Scenarios.FiveDividedByZeroRejected | calculater/script.js:78-100 | the typed-zero state behind "5 / " assembles "5 / 0", which the division guard rejects |
| Scenarios.FiveDividedThreeDeleteEquals | calculater/script.js:27-122 | 5 / 3, a delete and equals end in the error state whatever the evaluator says |
| Scenarios.ExponentResultPoisons | calculater/script.js:40-122 | the result "1e+21" fails on equals even when it evaluates to itself, and so does "1e+21 op d" typed onto it |
| Scenarios.SevenDigitsGrouped | calculater/script.js:136-142 | 1234567 shows as "1,234,567" |
| Scenarios.TrailingPointKept | calculater/script.js:139-140 | 12. shows as "12." |

## Left out

- DOM lookups, `innerText` writes and listener registration (calculater/script.js:1-9, 148-157, 162-206). They are I/O. `Session.Step` keeps only the dispatch from a press to a transition.
- The keyboard test `e.key >= 0 && e.key <= 9` (calculater/script.js:188). JavaScript coerces the key to a number, so the space key passes as well. Presses are modelled as digits, '.', the five operators, equals, delete and all-clear. `Calculator.AppendNumber` itself accepts any character.
- Numeric evaluation (calculater/script.js:109-115). `Function`, double-precision arithmetic, `isFinite`/`isNaN` and `Number.prototype.toString` are the parameter `eval`. No arithmetic result and no rounding is proved.
- `Session.ComputeInv`: assumes the evaluator only returns texts of finite numbers, meaning non-empty, blank-free, at most one decimal point and never "Error". The model does not derive this from `toString`.
- `toLocaleString('en', …)` (calculater/script.js:136) is the parameter `formatInteger`. It is assumed to equal `Grouping.GroupThousands` only for canonical digit strings of at most 15 digits (`DisplayFacts.GroupedDisplay`). Negative numbers, exponents and rounding of long integers are not modelled.
- `updateDisplay` runs after every transition. It writes to the page and does not change the state, so it is not repeated inside the transitions.

=== FILE: calculator.dfy ===
/** The calculator's expression state machine (calculater/script.js, lines
    11-124): one immutable state record and a pure function per transition.
    The arithmetic evaluation is a parameter: `eval(e)` is the string form of
    the value of the expression `e`, or None when evaluating `e` throws or
    yields an infinite or NaN value. */
module Calculator {
  import opened Wrappers
  import opened JsText
  import opened Validation

  /** The placeholder shown for an empty operand. */
  const Placeholder: string := "0"

  /** The sentinel shown, and stored as the operand, in the error state. */
  const ErrorText: string := "Error"

  /** The characters `compute` tests the trimmed history's last character
      against; `includes` is a substring test, so the spaces count too. */
  const OperatorList: string := "+ - * / %"

  datatype State = State(
    currentInput: string,
    expressionHistory: string,
    shouldResetScreen: bool,
    hasError: bool)

  type Evaluator = string -> Option<string>

  /** The initial state, and the state `clear` resets to. */
  function Clear(): (r: State)
    ensures r.currentInput == Placeholder && r.expressionHistory == ""
    ensures !r.shouldResetScreen && !r.hasError
  {
    State(Placeholder, "", false, false)
  }

  /** `deleteNumber`: a full clear in the error state or right after an
      operator or a result; otherwise the last character of the operand goes,
      and a one-character operand falls back to the placeholder. */
  function DeleteNumber(s: State): (r: State)
    ensures s.hasError || s.shouldResetScreen ==> r == Clear()
    ensures !s.hasError && !s.shouldResetScreen ==>
      && r.expressionHistory == s.expressionHistory
      && !r.shouldResetScreen && !r.hasError
      && (|s.currentInput| == 1 ==> r.currentInput == Placeholder)
      && (|s.currentInput| > 1 ==>
            r.currentInput + [s.currentInput[|s.currentInput| - 1]] == s.currentInput)
    ensures |s.currentInput| > 0 || s.hasError || s.shouldResetScreen ==> |r.currentInput| > 0
  {
    if s.hasError || s.shouldResetScreen then Clear()
    else if |s.currentInput| == 1 then s.(currentInput := Placeholder)
    else s.(currentInput := DropLast(s.currentInput))
  }

  /** The operand `appendNumber` extends: the placeholder after the implicit
      clear of the error state, the empty string when a fresh operand starts
      (after an operator or a result), and the current operand otherwise. */
  function EntryOperand(s: State): string {
    if s.hasError then Placeholder
    else if s.shouldResetScreen then ""
    else s.currentInput
  }

  /** `appendNumber`: leaves the history alone (except for the implicit clear
      of the error state), clears both flags, ignores a second decimal point,
      replaces a lone placeholder "0" by a digit, and appends otherwise. */
  function AppendNumber(s: State, number: char): (r: State)
    ensures !r.hasError && !r.shouldResetScreen
    ensures r.expressionHistory == (if s.hasError then "" else s.expressionHistory)
    ensures number == '.' && '.' in EntryOperand(s) ==> r.currentInput == EntryOperand(s)
    ensures number == '.' && '.' !in EntryOperand(s) ==> r.currentInput == EntryOperand(s) + "."
    ensures number != '.' && EntryOperand(s) == Placeholder ==> r.currentInput == [number]
    ensures number != '.' && EntryOperand(s) != Placeholder ==>
      r.currentInput == EntryOperand(s) + [number]
  {
    var s1 := if s.hasError then Clear() else s;
    var s2 := if s1.shouldResetScreen then s1.(currentInput := "", shouldResetScreen := false) else s1;
    if number == '.' && '.' in s2.currentInput then s2
    else if s2.currentInput == Placeholder && number != '.' then s2.(currentInput := [number])
    else s2.(currentInput := s2.currentInput + [number])
  }

  /** The history segment an operator commits: the operand, then the operator
      between single spaces. */
  function Segment(operand: string, operator: char): (seg: string)
    ensures |seg| == |operand| + 3
    ensures seg[|seg| - 3] == ' ' && seg[|seg| - 2] == operator && seg[|seg| - 1] == ' '
    ensures seg[..|operand|] == operand
  {
    operand + " " + [operator] + " "
  }

  /** `chooseOperation`: nothing in the error state; otherwise the operand and
      operator are committed to the history (replacing the history when a
      fresh operand was pending, appending to it otherwise) and a fresh
      operand becomes pending behind the placeholder. */
  function ChooseOperation(s: State, operator: char): (r: State)
    ensures s.hasError ==> r == s
    ensures !s.hasError ==>
      && r.currentInput == Placeholder && r.shouldResetScreen && !r.hasError
      && r.expressionHistory ==
           (if s.shouldResetScreen then "" else s.expressionHistory) + Segment(s.currentInput, operator)
  {
    if s.hasError then s
    else if s.shouldResetScreen then
      State(Placeholder, Segment(s.currentInput, operator), true, false)
    else
      State(Placeholder, s.expressionHistory + Segment(s.currentInput, operator), true, false)
  }

  /** The `else` branch of the expression assembly in `compute`: trim the
      history, then drop its last character when `OperatorList` includes it.
      On the empty history `slice(-1)` is "", which every string includes. */
  function StripTrailingOperator(history: string): (e: string)
    ensures var t := Trim(history);
      && |e| <= |t| <= |e| + 1 && e == t[..|e|]
      && (|t| > 0 ==> (|e| < |t| <==> t[|t| - 1] in OperatorList))
  {
    var t := Trim(history);
    IncludesSliceLast(OperatorList, t);
    if Includes(OperatorList, SliceLast(t)) then DropLast(t) else t
  }

  /** The expression `compute` evaluates: history followed by the operand,
      except when the operand is the untouched placeholder of a pending fresh
      operand, in which case the dangling operator is stripped instead. */
  function AssembleExpression(s: State): (e: string)
    ensures !s.shouldResetScreen || s.currentInput != Placeholder ==>
      e == s.expressionHistory + s.currentInput
    ensures s.shouldResetScreen && s.currentInput == Placeholder ==>
      e == StripTrailingOperator(s.expressionHistory) && |e| <= |s.expressionHistory|
  {
    if !s.shouldResetScreen || s.currentInput != Placeholder then
      s.expressionHistory + s.currentInput
    else
      StripTrailingOperator(s.expressionHistory)
  }

  /** The `catch` branch of `compute`: the operand becomes the sentinel and
      the error flag is set; history and the reset flag are kept. */
  function Fail(s: State): (r: State)
    ensures r.hasError && r.currentInput == ErrorText
    ensures r.expressionHistory == s.expressionHistory
    ensures r.shouldResetScreen == s.shouldResetScreen
  {
    s.(currentInput := ErrorText, hasError := true)
  }

  /** `compute`: nothing in the error state. Otherwise the assembled
      expression is rejected (division by zero, a character outside the
      arithmetic alphabet, or an evaluation failure), which enters the error
      state, or its value becomes the operand with an empty history and a
      fresh operand pending. */
  function Compute(s: State, eval: Evaluator): (r: State)
    ensures s.hasError ==> r == s
    ensures !s.hasError ==>
      var e := AssembleExpression(s);
      && (r.hasError <==> Rejected(e) || eval(e).None?)
      && (r.hasError ==> r == Fail(s))
      && (!r.hasError ==>
            r.currentInput == eval(e).value && r.expressionHistory == ""
            && r.shouldResetScreen)
  {
    if s.hasError then s
    else
      var e := AssembleExpression(s);
      if DivisionByZero(e) || HasDisallowedChar(e) then Fail(s)
      else match eval(e)
        case None => Fail(s)
        case Some(v) => State(v, "", true, false)
  }
}

=== FILE: compute_facts.dfy ===
/** What `compute` does with the histories `chooseOperation` builds
    (calculater/script.js, lines 70-124). */
module ComputeFacts {
  import opened Wrappers
  import opened JsText
  import opened Validation
  import opened Calculator
  import opened Session

  lemma OperatorNotWhitespace(op: char)
    requires IsOperator(op)
    ensures !IsJsWhitespace(op)
  {
  }

  /** Trimming a committed history drops exactly its final space. */
  lemma TrimHistory(h: string)
    requires HistoryShape(h) && h != ""
    ensures Trim(h) == h[..|h| - 1]
  {
    var r := Trim(h);
    var a :| TrimmedAt(h, r, a);
    OperatorNotWhitespace(h[|h| - 2]);
    assert !IsJsWhitespace(h[0]) && !IsJsWhitespace(h[|h| - 2]) && IsJsWhitespace(h[|h| - 1]);
    assert a == 0;
    assert |r| == |h| - 1;
  }

  /** The strip of `compute` on a committed history removes the operator
      but keeps the space before it: "1 + " becomes "1 ", not "1". */
  lemma StripCommittedHistory(h: string)
    requires HistoryShape(h) && h != ""
    ensures StripTrailingOperator(h) == h[..|h| - 2]
  {
    var t := h[..|h| - 1];
    calc {
      StripTrailingOperator(h);
      { TrimHistory(h); }
      if Includes(OperatorList, SliceLast(t)) then DropLast(t) else t;
      { OperatorEndIncluded(t); }
      DropLast(t);
      h[..|h| - 2];
    }
  }

  /** A text ending in an operator passes the `includes` test of the strip. */
  lemma OperatorEndIncluded(t: string)
    requires |t| > 0 && IsOperator(t[|t| - 1])
    ensures Includes(OperatorList, SliceLast(t))
  {
    IncludesSliceLast(OperatorList, t);
    var op := t[|t| - 1];
    var k := if op == '+' then 0 else if op == '-' then 2 else if op == '*' then 4
      else if op == '/' then 6 else 8;
    assert OperatorList[k] == op;
  }

  /** The strip of `compute` on the empty history: `slice(-1)` of "" is "",
      which `includes` finds, so the expression stays "". */
  lemma StripEmptyHistory()
    ensures StripTrailingOperator("") == ""
  {
    IncludesEmpty(OperatorList);
    assert Trim("") == "";
  }

  /** Equals right after an operator evaluates the history without its
      dangling operator. */
  lemma AssembleAfterOperator(s: State)
    requires Inv(s) && !s.hasError && s.shouldResetScreen && s.expressionHistory != ""
    ensures var h := s.expressionHistory;
      AssembleExpression(s) == h[..|h| - 2]
  {
    StripCommittedHistory(s.expressionHistory);
  }

  /** A pending fresh operand behind an empty history with the placeholder
      as operand, which is the state a computed "0" leaves, assembles the
      empty expression; an evaluator that rejects the empty expression (as
      JavaScript's parser does) sends the calculator to the error state. */
  lemma ComputeAfterZeroResult(eval: Evaluator)
    requires eval("") == None
    ensures Compute(State(Placeholder, "", true, false), eval) == Fail(State(Placeholder, "", true, false))
  {
    var s := State(Placeholder, "", true, false);
    StripEmptyHistory();
    assert AssembleExpression(s) == "";
  }

  /** Any other computed result, pressed equals on again, is assembled bare
      and, when its own text evaluates back to itself, stays unchanged. */
  lemma RecomputeResult(v: string, eval: Evaluator)
    requires v != Placeholder && !Rejected(v) && eval(v) == Some(v)
    ensures Compute(State(v, "", true, false), eval) == State(v, "", true, false)
  {
    assert AssembleExpression(State(v, "", true, false)) == "" + v;
    assert "" + v == v;
  }

  lemma {:induction false} DisallowedSurvivesPrefix(h: string, v: string, i: int)
    requires 0 <= i < |v| && !AllowedChar(v[i])
    ensures HasDisallowedChar(h + v)
  {
    assert (h + v)[|h| + i] == v[i];
  }

  /** An operand holding a character outside the arithmetic alphabet, such
      as the exponent of a result printed as "1e+21", makes equals fail
      whatever precedes it. */
  lemma DisallowedOperandRejected(s: State, i: int, eval: Evaluator)
    requires !s.hasError && !(s.shouldResetScreen && s.currentInput == Placeholder)
    requires 0 <= i < |s.currentInput| && !AllowedChar(s.currentInput[i])
    ensures Compute(s, eval) == Fail(s)
  {
    DisallowedSurvivesPrefix(s.expressionHistory, s.currentInput, i);
  }

  /** A disallowed character already in the history, such as the exponent of
      a result an operator was chained onto, makes equals fail while an
      operand is being typed behind it. */
  lemma DisallowedHistoryRejected(s: State, i: int, eval: Evaluator)
    requires !s.hasError && !s.shouldResetScreen
    requires 0 <= i < |s.expressionHistory| && !AllowedChar(s.expressionHistory[i])
    ensures Compute(s, eval) == Fail(s)
  {
    assert (s.expressionHistory + s.currentInput)[i] == s.expressionHistory[i];
  }

  /** A second operator right after the first replaces the whole history by
      the placeholder and the new operator: the first operand is lost. */
  lemma RepeatedOperatorOverwrites(s: State, a: char, b: char)
    requires !s.hasError
    ensures ChooseOperation(ChooseOperation(s, a), b).expressionHistory == "0 " + [b] + " "
  {
  }

  /** Deleting a one-character operand leaves the placeholder as an operand
      being typed, not as a pending fresh operand, so equals evaluates the
      history followed by "0" instead of stripping the operator. */
  lemma DeletedOperandIsEvaluated(s: State)
    requires !s.hasError && !s.shouldResetScreen && |s.currentInput| == 1
    ensures var r := DeleteNumber(s);
      && r == State(Placeholder, s.expressionHistory, false, false)
      && AssembleExpression(r) == s.expressionHistory + Placeholder
  {
  }

  /** Behind a committed history, the placeholder left by delete and the
      placeholder pending after an operator look alike on the display but
      assemble different expressions. */
  lemma TypedZeroIsNotPendingZero(h: string)
    requires HistoryShape(h) && h != ""
    ensures AssembleExpression(State(Placeholder, h, false, false)) == h + Placeholder
    ensures AssembleExpression(State(Placeholder, h, true, false)) == h[..|h| - 2]
  {
    StripCommittedHistory(h);
  }
}

=== FILE: display.dfy ===
/** The display projection (calculater/script.js, lines 126-158 without the
    DOM writes): the operand line and the history line as strings.
    `formatInteger` stands for `parseFloat` followed by
    `toLocaleString('en', { maximumFractionDigits: 0 })` on a text that
    `parseFloat` does read as a number. */
module Display {
  import opened JsText
  import opened Calculator

  type IntegerFormatter = string -> string

  /** `isNaN(parseFloat(p))`: after leading whitespace and an optional sign,
      `p` starts neither with a digit, nor with a decimal point followed by a
      digit, nor with "Infinity". */
  predicate ParseFloatIsNaN(p: string) {
    var t := TrimStart(p);
    var u := if |t| > 0 && (t[0] == '+' || t[0] == '-') then t[1..] else t;
    !(|u| > 0 && IsDigit(u[0]))
    && !(|u| > 1 && u[0] == '.' && IsDigit(u[1]))
    && !(|u| >= 8 && u[..8] == "Infinity")
  }

  /** The integer-part rendering: empty when `parseFloat` gives NaN, the
      grouped number otherwise. */
  function IntegerDisplay(p: string, formatInteger: IntegerFormatter): (r: string)
    ensures ParseFloatIsNaN(p) ==> r == ""
    ensures !ParseFloatIsNaN(p) ==> r == formatInteger(p)
  {
    if ParseFloatIsNaN(p) then "" else formatInteger(p)
  }

  /** `getDisplayNumber`: the sentinel in the error state; otherwise the text
      before the first decimal point is rendered by `IntegerDisplay`, and the
      text between the first and any second decimal point is reattached
      verbatim after a decimal point when there is a decimal point at all. */
  function GetDisplayNumber(number: string, hasError: bool, formatInteger: IntegerFormatter): (r: string)
    ensures number == ErrorText || hasError ==> r == ErrorText
    ensures number != ErrorText && !hasError && '.' !in number ==>
      r == IntegerDisplay(number, formatInteger)
    ensures number != ErrorText && !hasError && Count(number, '.') == 1 ==>
      exists k :: FractionSplit(number, k) &&
        r == IntegerDisplay(number[..k], formatInteger) + "." + number[k + 1..]
  {
    if number == ErrorText || hasError then ErrorText
    else
      var parts := Split(number, '.');
      var integerDisplay := IntegerDisplay(parts[0], formatInteger);
      if |parts| > 1 then
        SplitAtDot(number, parts);
        integerDisplay + "." + parts[1]
      else integerDisplay
  }

  /** `k` is the position of the only decimal point of `number`. */
  predicate FractionSplit(number: string, k: int) {
    0 <= k < |number| && number[k] == '.' && '.' !in number[..k] && '.' !in number[k + 1..]
  }

  /** When `number` has a decimal point, the first two pieces of
      `split('.')` are the text before the first point and the text right
      after it; with exactly one point they are the integer and fractional
      text around it. */
  lemma SplitAtDot(number: string, parts: seq<string>)
    requires parts == Split(number, '.')
    requires |parts| > 1
    ensures number[..|parts[0]|] == parts[0] && number[|parts[0]|] == '.'
    ensures Count(number, '.') == 1 ==>
      |parts| == 2 && FractionSplit(number, |parts[0]|) && number[|parts[0]| + 1..] == parts[1]
  {
    assert number == parts[0] + ['.'] + Join(parts[1..], '.');
    assert number[..|parts[0]|] == parts[0];
    if |parts| == 2 {
      assert number == parts[0] + ['.'] + parts[1];
      assert number[|parts[0]| + 1..] == parts[1];
    }
  }

  /** `updateDisplay` without the DOM: the operand line and the history line.
      The error state shows the sentinel and hides the (kept) history. */
  function UpdateDisplay(s: State, formatInteger: IntegerFormatter): (lines: (string, string))
    ensures s.hasError ==> lines == (ErrorText, "")
    ensures !s.hasError ==>
      lines == (GetDisplayNumber(s.currentInput, false, formatInteger), s.expressionHistory)
  {
    if s.hasError then (ErrorText, "")
    else (GetDisplayNumber(s.currentInput, s.hasError, formatInteger), s.expressionHistory)
  }
}

=== FILE: display_facts.dfy ===
/** What the display shows for the operands the calculator holds
    (calculater/script.js, lines 126-157). */
module DisplayFacts {
  import opened JsText
  import opened Calculator
  import opened Session
  import opened Display
  import opened Grouping

  /** A text without a leading sign, blank or digit is not a number to
      `parseFloat`; in particular the empty integer part of ".5" is not. */
  lemma EmptyIntegerPartIsNaN()
    ensures ParseFloatIsNaN("")
  {
  }

  /** A non-empty digit string is not NaN for `parseFloat`. */
  lemma DigitsAreNumbers(d: string)
    requires |d| > 0 && IsDigitString(d)
    ensures !ParseFloatIsNaN(d)
  {
    assert !IsJsWhitespace(d[0]);
    assert TrimStart(d) == d;
  }

  /** A numeral has at most one position of its only decimal point. */
  lemma FractionSplitUnique(n: string, k1: int, k2: int)
    requires FractionSplit(n, k1) && FractionSplit(n, k2)
    ensures k1 == k2
  {
    forall j | 0 <= j < k2
      ensures n[j] != '.'
    {
      assert n[..k2][j] == n[j];
    }
    forall j | 0 <= j < k1
      ensures n[j] != '.'
    {
      assert n[..k1][j] == n[j];
    }
  }

  /** A point between two point-free texts is the only one, and the text
      splits around it into exactly those two. */
  lemma OnlyPointBetween(i: string, f: string)
    requires '.' !in i && '.' !in f
    ensures Count(i + "." + f, '.') == 1
    ensures FractionSplit(i + "." + f, |i|)
    ensures (i + "." + f)[..|i|] == i && (i + "." + f)[|i| + 1..] == f
  {
    CountAppend(i, ".", '.');
    CountAppend(i + ".", f, '.');
    assert Count(".", '.') == 1;
    PointSplits(i, f);
  }

  /** The texts around the point of `i + "." + f` are `i` and `f`. */
  lemma PointSplits(i: string, f: string)
    ensures var n := i + "." + f;
      n[|i|] == '.' && n[..|i|] == i && n[|i| + 1..] == f
  {
  }

  /** The fractional part is reattached verbatim behind the rendering of the
      integer part: a trailing decimal point stays, and an empty integer part
      renders as nothing. */
  lemma FractionVerbatim(i: string, f: string, formatInteger: IntegerFormatter)
    requires '.' !in i && '.' !in f
    ensures GetDisplayNumber(i + "." + f, false, formatInteger)
            == IntegerDisplay(i, formatInteger) + "." + f
  {
    var n := i + "." + f;
    OnlyPointBetween(i, f);
    assert n != ErrorText by {
      assert n[|i|] == '.' && '.' !in ErrorText;
    }
    var k :| FractionSplit(n, k) &&
      GetDisplayNumber(n, false, formatInteger) == IntegerDisplay(n[..k], formatInteger) + "." + n[k + 1..];
    FractionSplitUnique(n, k, |i|);
  }

  /** ".5", typed after an operator, shows as ".5". */
  lemma LeadingPointShowsBare(f: string, formatInteger: IntegerFormatter)
    requires '.' !in f
    ensures GetDisplayNumber("." + f, false, formatInteger) == "." + f
  {
    assert "" + "." + f == "." + f;
    FractionVerbatim("", f, formatInteger);
  }

  /** With a formatter that groups `d` the English way, an integer numeral
      shows grouped, and with a trailing decimal point it shows grouped and
      keeps the point. */
  lemma GroupedDisplay(d: string, formatInteger: IntegerFormatter)
    requires IsCanonicalInteger(d) && formatInteger(d) == GroupThousands(d)
    ensures GetDisplayNumber(d, false, formatInteger) == GroupThousands(d)
    ensures GetDisplayNumber(d + ".", false, formatInteger) == GroupThousands(d) + "."
  {
    DigitsAreNumbers(d);
    assert d[0] != 'E';
    assert '.' !in d;
    assert d + "." == d + "." + "";
    FractionVerbatim(d, "", formatInteger);
  }

  /** An operand without a decimal point shows as its integer rendering,
      which is not the sentinel when the formatter never prints it. */
  lemma IntegerShownIsNotSentinel(n: string, formatInteger: IntegerFormatter)
    requires n != ErrorText && '.' !in n
    requires forall p :: formatInteger(p) != ErrorText
    ensures GetDisplayNumber(n, false, formatInteger) != ErrorText
  {
    assert GetDisplayNumber(n, false, formatInteger) == IntegerDisplay(n, formatInteger);
  }

  /** An operand with one decimal point shows a decimal point, so it is not
      the sentinel whatever the formatter prints. */
  lemma FractionShownIsNotSentinel(n: string, formatInteger: IntegerFormatter)
    requires n != ErrorText && Count(n, '.') == 1
    ensures GetDisplayNumber(n, false, formatInteger) != ErrorText
  {
    var r := GetDisplayNumber(n, false, formatInteger);
    var k :| FractionSplit(n, k) &&
      r == IntegerDisplay(n[..k], formatInteger) + "." + n[k + 1..];
    PointedIsNotSentinel(IntegerDisplay(n[..k], formatInteger), n[k + 1..]);
  }

  /** Any text with a decimal point differs from the sentinel. */
  lemma PointedIsNotSentinel(a: string, b: string)
    ensures a + "." + b != ErrorText
  {
    assert (a + "." + b)[|a|] == '.';
    assert '.' !in ErrorText;
  }

  /** In a state keeping the invariant, the operand line shows the sentinel
      exactly in the error state, provided the formatter never prints it. */
  lemma ErrorShownIffError(s: State, formatInteger: IntegerFormatter)
    requires Inv(s)
    requires forall p :: formatInteger(p) != ErrorText
    ensures UpdateDisplay(s, formatInteger).0 == ErrorText <==> s.hasError
    ensures s.hasError ==> UpdateDisplay(s, formatInteger).1 == ""
  {
    if !s.hasError {
      if '.' in s.currentInput {
        FractionShownIsNotSentinel(s.currentInput, formatInteger);
      } else {
        IntegerShownIsNotSentinel(s.currentInput, formatInteger);
      }
    }
  }
}

=== FILE: grouping.dfy ===
/** English thousands grouping of a non-negative integer written in decimal,
    the rendering `toLocaleString('en', { maximumFractionDigits: 0 })` gives
    (calculater/script.js, line 136) for the integer numerals a user types:
    a comma before every third digit counted from the right. */
module Grouping {
  import opened JsText

  predicate IsDigitString(d: string) {
    forall i :: 0 <= i < |d| ==> IsDigit(d[i])
  }

  /** The integer numerals `parseFloat` reads back exactly and without
      change: no leading zero unless the numeral is "0", and at most fifteen
      digits, so the value is an exactly representable double. */
  predicate IsCanonicalInteger(d: string) {
    && 0 < |d| <= 15
    && IsDigitString(d)
    && (d[0] == '0' ==> |d| == 1)
  }

  /** The text with every comma removed. */
  function RemoveCommas(g: string): (r: string)
    ensures ',' !in r
    ensures |r| <= |g|
  {
    if |g| == 0 then ""
    else (if g[0] == ',' then "" else [g[0]]) + RemoveCommas(g[1..])
  }

  lemma {:induction false} RemoveCommasAppend(a: string, b: string)
    ensures RemoveCommas(a + b) == RemoveCommas(a) + RemoveCommas(b)
  {
    if |a| == 0 {
      assert a + b == b;
    } else {
      assert (a + b)[0] == a[0] && (a + b)[1..] == a[1..] + b;
      RemoveCommasAppend(a[1..], b);
      assert RemoveCommas(a) == (if a[0] == ',' then "" else [a[0]]) + RemoveCommas(a[1..]);
    }
  }

  lemma {:induction false} RemoveCommasNoop(d: string)
    requires ',' !in d
    ensures RemoveCommas(d) == d
  {
    if |d| > 0 {
      RemoveCommasNoop(d[1..]);
      assert d == [d[0]] + d[1..];
    }
  }

  /** Digits grouped in threes from the right: one comma per full group
      before the last, every fourth character counted from the end is a
      comma and no other is. */
  function GroupThousands(d: string): (g: string)
    requires ',' !in d
    ensures |d| > 0 ==> |g| == |d| + (|d| - 1) / 3
    ensures forall i :: 0 <= i < |g| ==> (g[i] == ',' <==> (|g| - i) % 4 == 0)
  {
    if |d| <= 3 then d
    else
      var head := GroupThousands(d[..|d| - 3]);
      var g := head + "," + d[|d| - 3..];
      assert forall i :: |head| < i < |g| ==> g[i] == d[|d| - 3..][i - |head| - 1];
      g
  }

  /** Grouping only inserts commas: removing them gives the digits back. */
  lemma {:induction false} GroupThousandsRoundTrip(d: string)
    requires ',' !in d
    ensures RemoveCommas(GroupThousands(d)) == d
  {
    if |d| <= 3 {
      RemoveCommasNoop(d);
    } else {
      var head, tail := d[..|d| - 3], d[|d| - 3..];
      assert ',' !in head && ',' !in tail;
      var gh := GroupThousands(head);
      assert GroupThousands(d) == gh + ("," + tail);
      calc {
        RemoveCommas(GroupThousands(d));
        { RemoveCommasAppend(gh, "," + tail); }
        RemoveCommas(gh) + RemoveCommas("," + tail);
        { RemoveCommasAppend(",", tail); }
        RemoveCommas(gh) + RemoveCommas(",") + RemoveCommas(tail);
        { GroupThousandsRoundTrip(head); RemoveCommasNoop(tail); }
        head + RemoveCommas(",") + tail;
        { assert RemoveCommas(",") == ""; }
        head + tail;
      }
      assert head + tail == d;
    }
  }

  /** The grouping of a seven-digit numeral. */
  lemma GroupSevenDigits()
    ensures GroupThousands("1234567") == "1,234,567"
  {
    assert GroupThousands("1") == "1";
    assert "1234"[..1] == "1" && "1234"[1..] == "234";
    assert GroupThousands("1234") == "1" + "," + "234";
    assert "1" + "," + "234" == "1,234";
    assert "1234567"[..4] == "1234" && "1234567"[4..] == "567";
    assert GroupThousands("1234567") == "1,234" + "," + "567";
    assert "1,234" + "," + "567" == "1,234,567";
  }
}

=== FILE: jstext.dfy ===
/** The few JavaScript string operations the calculator relies on, stated over
    `seq<char>`: `trim`, `slice(-1)`, `slice(0, -1)`, `includes` and `split`. */
module JsText {

  /** A decimal digit, the class `[0-9]` of the calculator's regular
      expressions and the leading character `parseFloat` looks for. */
  predicate IsDigit(c: char) {
    '0' <= c <= '9'
  }

  /** A code point that ECMAScript's `String.prototype.trim` and `parseFloat`
      skip: the WhiteSpace characters (tab, vertical tab, form feed, the byte
      order mark and every space separator) and the LineTerminator ones. */
  predicate IsJsWhitespace(c: char) {
    || c == '\t' || c == '\n' || c == '\U{B}' || c == '\U{C}' || c == '\r'
    || c == ' ' || c == '\U{A0}' || c == '\U{1680}'
    || ('\U{2000}' <= c <= '\U{200A}')
    || c == '\U{2028}' || c == '\U{2029}' || c == '\U{202F}' || c == '\U{205F}'
    || c == '\U{3000}' || c == '\U{FEFF}'
  }

  /** Leading whitespace removed: the removed prefix is all whitespace and
      what remains does not start with whitespace. */
  function TrimStart(s: string): (r: string)
    ensures |r| <= |s| && r == s[|s| - |r|..]
    ensures forall i :: 0 <= i < |s| - |r| ==> IsJsWhitespace(s[i])
    ensures r == [] || !IsJsWhitespace(r[0])
  {
    if |s| > 0 && IsJsWhitespace(s[0]) then TrimStart(s[1..]) else s
  }

  /** Trailing whitespace removed: the removed suffix is all whitespace and
      what remains does not end with whitespace. */
  function TrimEnd(s: string): (r: string)
    ensures |r| <= |s| && r == s[..|r|]
    ensures forall i :: |r| <= i < |s| ==> IsJsWhitespace(s[i])
    ensures r == [] || !IsJsWhitespace(r[|r| - 1])
  {
    if |s| > 0 && IsJsWhitespace(s[|s| - 1]) then TrimEnd(s[..|s| - 1]) else s
  }

  /** `s.trim()`: the longest infix of `s` that neither starts nor ends with
      whitespace, everything outside it being whitespace. */
  function Trim(s: string): (r: string)
    ensures exists a :: TrimmedAt(s, r, a)
    ensures r == [] || (!IsJsWhitespace(r[0]) && !IsJsWhitespace(r[|r| - 1]))
  {
    var t := TrimStart(s);
    var r := TrimEnd(t);
    TrimBothEnds(s, t, r);
    assert TrimmedAt(s, r, |s| - |t|);
    assert r == [] || (r[0] == t[0] && r[|r| - 1] == t[|r| - 1]);
    r
  }

  /** Cutting a whitespace prefix off `s`, leaving `t`, and then a whitespace
      suffix off `t`, leaving `r`, leaves an infix of `s` with whitespace only
      outside it. */
  lemma TrimBothEnds(s: string, t: string, r: string)
    requires |t| <= |s| && t == s[|s| - |t|..]
    requires forall i :: 0 <= i < |s| - |t| ==> IsJsWhitespace(s[i])
    requires |r| <= |t| && r == t[..|r|]
    requires forall i :: |r| <= i < |t| ==> IsJsWhitespace(t[i])
    ensures TrimmedAt(s, r, |s| - |t|)
  {
    var a := |s| - |t|;
    assert r == s[a..a + |r|];
    forall i | a + |r| <= i < |s|
      ensures IsJsWhitespace(s[i])
    {
      assert s[i] == t[i - a];
    }
  }

  /** `r` is the infix of `s` starting at `a`, and everything of `s` outside
      it is whitespace. */
  predicate TrimmedAt(s: string, r: string, a: int) {
    && 0 <= a <= |s| - |r|
    && r == s[a..a + |r|]
    && (forall i :: 0 <= i < a ==> IsJsWhitespace(s[i]))
    && (forall i :: a + |r| <= i < |s| ==> IsJsWhitespace(s[i]))
  }

  /** `s.slice(-1)`: the last character as a string, or "" for "". */
  function SliceLast(s: string): (r: string)
    ensures |r| == (if |s| == 0 then 0 else 1)
    ensures s == s[..|s| - |r|] + r
  {
    if |s| == 0 then "" else s[|s| - 1..]
  }

  /** `s.slice(0, -1)`: everything but the last character, or "" for "". */
  function DropLast(s: string): (r: string)
    ensures |s| > 0 ==> r + [s[|s| - 1]] == s
    ensures |s| == 0 ==> r == ""
  {
    if |s| == 0 then "" else s[..|s| - 1]
  }

  /** `hay.includes(needle)`: `needle` occurs in `hay` at some position; the
      empty needle occurs everywhere. */
  predicate Includes(hay: string, needle: string) {
    exists i | 0 <= i <= |hay| :: OccursAt(hay, needle, i)
  }

  predicate OccursAt(hay: string, needle: string, i: int) {
    0 <= i <= |hay| - |needle| && hay[i..i + |needle|] == needle
  }

  /** A one-character needle is included exactly when the character occurs. */
  lemma IncludesChar(hay: string, c: char)
    ensures Includes(hay, [c]) <==> c in hay
  {
    if c in hay {
      var i :| 0 <= i < |hay| && hay[i] == c;
      assert OccursAt(hay, [c], i);
    }
    if Includes(hay, [c]) {
      var i :| 0 <= i <= |hay| && OccursAt(hay, [c], i);
      assert hay[i..i + 1] == [c];
      assert hay[i] == c;
    }
  }

  /** `hay.includes(t.slice(-1))`: whether `hay` holds the last character
      of `t`, and always true for the empty `t`. */
  lemma IncludesSliceLast(hay: string, t: string)
    ensures |t| == 0 ==> Includes(hay, SliceLast(t))
    ensures |t| > 0 ==> (Includes(hay, SliceLast(t)) <==> t[|t| - 1] in hay)
  {
    if |t| == 0 {
      IncludesEmpty(hay);
    } else {
      assert SliceLast(t) == [t[|t| - 1]];
      IncludesChar(hay, t[|t| - 1]);
    }
  }

  /** Every string includes the empty string. */
  lemma IncludesEmpty(hay: string)
    ensures Includes(hay, "")
  {
    assert OccursAt(hay, "", 0);
  }

  /** Number of occurrences of `c` in `s`. */
  function Count(s: string, c: char): (n: nat)
    ensures n <= |s|
    ensures n == 0 <==> c !in s
  {
    if |s| == 0 then 0 else (if s[0] == c then 1 else 0) + Count(s[1..], c)
  }

  /** Occurrences of `c` add up over a concatenation. */
  lemma {:induction false} CountAppend(a: string, b: string, c: char)
    ensures Count(a + b, c) == Count(a, c) + Count(b, c)
  {
    if |a| == 0 {
      assert a + b == b;
    } else {
      assert (a + b)[1..] == a[1..] + b;
      CountAppend(a[1..], b, c);
    }
  }

  /** The pieces separated by `sep`, joined back with `sep`. */
  function Join(parts: seq<string>, sep: char): string
    requires |parts| > 0
  {
    if |parts| == 1 then parts[0] else parts[0] + [sep] + Join(parts[1..], sep)
  }

  /** `s.split(sep)` for a one-character separator: one more piece than there
      are separators, no piece holds the separator, and joining the pieces
      with the separator gives `s` back. */
  function Split(s: string, sep: char): (parts: seq<string>)
    ensures |parts| == Count(s, sep) + 1
    ensures forall i :: 0 <= i < |parts| ==> sep !in parts[i]
    ensures Join(parts, sep) == s
  {
    if |s| == 0 then [""]
    else
      var rest := Split(s[1..], sep);
      if s[0] == sep then
        assert [""] + rest == [""] + rest && ([""] + rest)[1..] == rest;
        [""] + rest
      else
        var parts := [[s[0]] + rest[0]] + rest[1..];
        assert parts[1..] == rest[1..];
        assert s == [s[0]] + s[1..];
        parts
  }
}

=== FILE: scenarios.dfy ===
/** Whole key sequences, each with only the evaluator answers it needs
    assumed. */
module Scenarios {
  import opened Wrappers
  import opened JsText
  import opened Validation
  import opened Calculator
  import opened Session
  import opened Display
  import opened Grouping
  import opened ComputeFacts
  import opened DisplayFacts

  /** Neither guard rejects an expression of digits, spaces and operators
      other than the slash. */
  lemma Accepted(e: string)
    requires forall i :: 0 <= i < |e| ==>
      IsDigit(e[i]) || e[i] == ' ' || (IsOperator(e[i]) && e[i] != '/')
    ensures !Rejected(e)
  {
    NoSlashNoDivisionByZero(e);
    AllAllowedPasses(e);
  }

  /** 5 + 3 = gives 8 with an empty history. */
  lemma FivePlusThree(eval: Evaluator)
    requires eval("5 + 3") == Some("8")
    ensures Run(Clear(), [Number('5'), Operation('+'), Number('3'), Equals], eval)
            == State("8", "", true, false)
  {
    var s1 := State("5", "", false, false);
    var s2 := State("0", "5 + ", true, false);
    var s3 := State("3", "5 + ", false, false);
    RunSnoc(Clear(), [], Number('5'), eval);
    assert [] + [Number('5')] == [Number('5')];
    assert Run(Clear(), [Number('5')], eval) == s1;
    RunSnoc(Clear(), [Number('5')], Operation('+'), eval);
    assert [Number('5')] + [Operation('+')] == [Number('5'), Operation('+')];
    assert Run(Clear(), [Number('5'), Operation('+')], eval) == s2;
    RunSnoc(Clear(), [Number('5'), Operation('+')], Number('3'), eval);
    assert [Number('5'), Operation('+')] + [Number('3')] == [Number('5'), Operation('+'), Number('3')];
    assert Run(Clear(), [Number('5'), Operation('+'), Number('3')], eval) == s3;
    RunSnoc(Clear(), [Number('5'), Operation('+'), Number('3')], Equals, eval);
    assert [Number('5'), Operation('+'), Number('3')] + [Equals] == [Number('5'), Operation('+'), Number('3'), Equals];
    assert AssembleExpression(s3) == "5 + 3";
    Accepted("5 + 3");
    assert Compute(s3, eval) == State("8", "", true, false);
  }

  /** 4 / 0 = is the error state whatever the evaluator says, the display
      shows only the sentinel, and all-clear then restores the initial state. */
  lemma FourDividedByZero(eval: Evaluator, formatInteger: IntegerFormatter)
    ensures var s := Run(Clear(), [Number('4'), Operation('/'), Number('0'), Equals], eval);
      && s == State(ErrorText, "4 / ", false, true)
      && UpdateDisplay(s, formatInteger) == (ErrorText, "")
      && Step(s, ClearAll, eval) == Clear()
  {
    var keys := [Number('4'), Operation('/'), Number('0')];
    var s3 := State("0", "4 / ", false, false);
    FourDividedByTypedZero(eval);
    RunSnoc(Clear(), keys, Equals, eval);
    assert keys + [Equals] == [Number('4'), Operation('/'), Number('0'), Equals];
    assert AssembleExpression(s3) == "4 / 0";
    assert DivisionByZeroAt("4 / 0", 2);
    assert Compute(s3, eval) == Fail(s3);
  }

  /** 4 / 0 builds the history "4 / " and the operand "0" being typed. */
  lemma FourDividedByTypedZero(eval: Evaluator)
    ensures Run(Clear(), [Number('4'), Operation('/'), Number('0')], eval)
      == State("0", "4 / ", false, false)
  {
    RunSnoc(Clear(), [], Number('4'), eval);
    assert [] + [Number('4')] == [Number('4')];
    RunSnoc(Clear(), [Number('4')], Operation('/'), eval);
    assert [Number('4')] + [Operation('/')] == [Number('4'), Operation('/')];
    RunSnoc(Clear(), [Number('4'), Operation('/')], Number('0'), eval);
    assert [Number('4'), Operation('/')] + [Number('0')] == [Number('4'), Operation('/'), Number('0')];
  }

  /** 1 + leaves "0" pending behind the history "1 + ". */
  lemma OnePlus(eval: Evaluator)
    ensures Run(Clear(), [Number('1'), Operation('+')], eval) == State("0", "1 + ", true, false)
  {
    RunSnoc(Clear(), [], Number('1'), eval);
    assert [] + [Number('1')] == [Number('1')];
    assert Run(Clear(), [Number('1')], eval) == State("1", "", false, false);
    RunSnoc(Clear(), [Number('1')], Operation('+'), eval);
    assert [Number('1')] + [Operation('+')] == [Number('1'), Operation('+')];
  }

  /** Equals on an expression both guards let through and the evaluator
      accepts. */
  lemma ComputeAccepted(s: State, e: string, v: string, eval: Evaluator)
    requires !s.hasError && AssembleExpression(s) == e && !Rejected(e) && eval(e) == Some(v)
    ensures Compute(s, eval) == State(v, "", true, false)
  {
  }

  /** With "0" pending behind "1 + ", the expression assembled is "1 ". */
  lemma OnePlusAssembles()
    ensures AssembleExpression(State("0", "1 + ", true, false)) == "1 "
  {
    assert HistoryShape("1 + ");
    StripCommittedHistory("1 + ");
    assert "1 + "[..2] == "1 ";
  }

  /** "1 " passes both guards. */
  lemma OneSpaceAccepted()
    ensures !Rejected("1 ")
  {
    var e := "1 ";
    assert e[0] == '1' && e[1] == ' ';
    Accepted(e);
  }

  /** 1 + = drops the dangling operator and evaluates "1 ". */
  lemma OnePlusEquals(eval: Evaluator)
    requires eval("1 ") == Some("1")
    ensures Run(Clear(), [Number('1'), Operation('+'), Equals], eval) == State("1", "", true, false)
  {
    var keys := [Number('1'), Operation('+')];
    assert keys + [Equals] == [Number('1'), Operation('+'), Equals];
    calc {
      Run(Clear(), keys + [Equals], eval);
      { RunSnoc(Clear(), keys, Equals, eval); }
      Step(Run(Clear(), keys, eval), Equals, eval);
      { OnePlus(eval); }
      Compute(State("0", "1 + ", true, false), eval);
      { OnePlusAssembles(); OneSpaceAccepted();
        ComputeAccepted(State("0", "1 + ", true, false), "1 ", "1", eval); }
      State("1", "", true, false);
    }
  }

  /** 5 - 5 = = ends in the error state: the second equals sees a computed
      "0", which is indistinguishable from the placeholder of a pending
      operand, and assembles the empty expression. */
  lemma ZeroResultRecomputedFails(eval: Evaluator)
    requires eval("5 - 5") == Some("0") && eval("") == None
    ensures Run(Clear(), [Number('5'), Operation('-'), Number('5'), Equals, Equals], eval).hasError
  {
    var k3 := [Number('5'), Operation('-'), Number('5')];
    FiveMinusFive(eval);
    assert k3 + [Equals] + [Equals] == [Number('5'), Operation('-'), Number('5'), Equals, Equals];
    calc {
      Run(Clear(), k3 + [Equals] + [Equals], eval);
      { RunSnoc(Clear(), k3 + [Equals], Equals, eval); }
      Step(Run(Clear(), k3 + [Equals], eval), Equals, eval);
      { RunSnoc(Clear(), k3, Equals, eval); }
      Step(Step(Run(Clear(), k3, eval), Equals, eval), Equals, eval);
      Step(Compute(State("5", "5 - ", false, false), eval), Equals, eval);
      { ComputeAccepted(State("5", "5 - ", false, false), "5 - 5", "0", eval); }
      Compute(State(Placeholder, "", true, false), eval);
      { ComputeAfterZeroResult(eval); }
      Fail(State(Placeholder, "", true, false));
    }
  }

  lemma FiveMinusFive(eval: Evaluator)
    ensures Run(Clear(), [Number('5'), Operation('-'), Number('5')], eval) == State("5", "5 - ", false, false)
    ensures AssembleExpression(State("5", "5 - ", false, false)) == "5 - 5"
    ensures !Rejected("5 - 5")
  {
    FiveMinus(eval);
    RunSnoc(Clear(), [Number('5'), Operation('-')], Number('5'), eval);
    assert [Number('5'), Operation('-')] + [Number('5')] == [Number('5'), Operation('-'), Number('5')];
    Accepted("5 - 5");
  }

  /** 5 - commits "5 - " and leaves the placeholder pending. */
  lemma FiveMinus(eval: Evaluator)
    ensures Run(Clear(), [Number('5'), Operation('-')], eval) == State("0", "5 - ", true, false)
  {
    RunSnoc(Clear(), [], Number('5'), eval);
    assert [] + [Number('5')] == [Number('5')];
    assert Run(Clear(), [Number('5')], eval) == State("5", "", false, false);
    RunSnoc(Clear(), [Number('5')], Operation('-'), eval);
    assert [Number('5')] + [Operation('-')] == [Number('5'), Operation('-')];
  }

  /** 5 + - keeps only the placeholder and the second operator. */
  lemma FivePlusMinus(eval: Evaluator)
    ensures Run(Clear(), [Number('5'), Operation('+'), Operation('-')], eval)
            == State(Placeholder, "0 - ", true, false)
  {
    RunSnoc(Clear(), [], Number('5'), eval);
    assert [] + [Number('5')] == [Number('5')];
    RunSnoc(Clear(), [Number('5')], Operation('+'), eval);
    assert [Number('5')] + [Operation('+')] == [Number('5'), Operation('+')];
    RunSnoc(Clear(), [Number('5'), Operation('+')], Operation('-'), eval);
    assert [Number('5'), Operation('+')] + [Operation('-')] == [Number('5'), Operation('+'), Operation('-')];
  }

  /** 5 op 3 and a delete leave the placeholder as an operand being typed,
      with no fresh operand pending. */
  lemma FiveOpThreeDelete(op: char, eval: Evaluator)
    ensures Run(Clear(), [Number('5'), Operation(op), Number('3'), Delete], eval)
            == State(Placeholder, "5 " + [op] + " ", false, false)
  {
    var k1 := [Number('5')];
    var k2 := k1 + [Operation(op)];
    var k3 := k2 + [Number('3')];
    RunSnoc(Clear(), [], Number('5'), eval);
    assert [] + [Number('5')] == k1;
    RunSnoc(Clear(), k1, Operation(op), eval);
    assert Run(Clear(), k2, eval) == State(Placeholder, "5 " + [op] + " ", true, false);
    RunSnoc(Clear(), k2, Number('3'), eval);
    assert Run(Clear(), k3, eval) == State("3", "5 " + [op] + " ", false, false);
    RunSnoc(Clear(), k3, Delete, eval);
    assert k3 + [Delete] == [Number('5'), Operation(op), Number('3'), Delete];
  }

  /** 5 * 3 and a delete show the same as 5 *, yet equals then evaluates
      "5 * 0" rather than "5 ". */
  lemma FiveTimesThreeDelete(eval: Evaluator)
    ensures Run(Clear(), [Number('5'), Operation('*'), Number('3'), Delete], eval)
            == State(Placeholder, "5 * ", false, false)
    ensures AssembleExpression(State(Placeholder, "5 * ", false, false)) == "5 * 0"
  {
    FiveOpThreeDelete('*', eval);
    assert "5 " + ['*'] + " " == "5 * ";
  }

  /** 5 / 3, a delete and equals divide by the placeholder, which the
      division guard rejects whatever the evaluator says. */
  lemma FiveDividedThreeDeleteEquals(eval: Evaluator)
    ensures Run(Clear(), [Number('5'), Operation('/'), Number('3'), Delete, Equals], eval).hasError
  {
    var keys := [Number('5'), Operation('/'), Number('3'), Delete];
    var s := State(Placeholder, "5 / ", false, false);
    assert keys + [Equals] == [Number('5'), Operation('/'), Number('3'), Delete, Equals];
    calc {
      Run(Clear(), keys + [Equals], eval);
      { RunSnoc(Clear(), keys, Equals, eval); }
      Step(Run(Clear(), keys, eval), Equals, eval);
      { FiveOpThreeDelete('/', eval); assert "5 " + ['/'] + " " == "5 / "; }
      Compute(s, eval);
      { FiveDividedByZeroRejected(); }
      Fail(s);
    }
  }

  /** "5 / 0", what 5 / 3 and a delete assemble, trips the division guard. */
  lemma FiveDividedByZeroRejected()
    ensures AssembleExpression(State(Placeholder, "5 / ", false, false)) == "5 / 0"
    ensures Rejected("5 / 0")
  {
    assert DivisionByZeroAt("5 / 0", 2);
  }

  /** A result printed in exponent form, "1e+21", fails on a second equals
      even when it evaluates back to itself, and so does any expression
      chained onto it by an operator and a digit. */
  lemma ExponentResultPoisons(eval: Evaluator, op: char, d: char)
    requires IsDigit(d)
    ensures var s := State("1e+21", "", true, false);
      Compute(s, eval) == Fail(s)
    ensures var t := AppendNumber(ChooseOperation(State("1e+21", "", true, false), op), d);
      Compute(t, eval) == Fail(t)
  {
    var s := State("1e+21", "", true, false);
    DisallowedOperandRejected(s, 1, eval);
    var t := AppendNumber(ChooseOperation(s, op), d);
    assert t.expressionHistory[1] == 'e';
    DisallowedHistoryRejected(t, 1, eval);
  }

  /** 1234567 shows as "1,234,567" under English grouping. */
  lemma SevenDigitsGrouped(formatInteger: IntegerFormatter)
    requires formatInteger("1234567") == GroupThousands("1234567")
    ensures GetDisplayNumber("1234567", false, formatInteger) == "1,234,567"
  {
    GroupedDisplay("1234567", formatInteger);
    GroupSevenDigits();
  }

  /** 12. shows as "12.": the typed decimal point stays. */
  lemma TrailingPointKept(formatInteger: IntegerFormatter)
    requires formatInteger("12") == GroupThousands("12")
    ensures GetDisplayNumber("12.", false, formatInteger) == "12."
  {
    calc {
      GetDisplayNumber("12.", false, formatInteger);
      { assert "12." == "12" + "." + ""; }
      GetDisplayNumber("12" + "." + "", false, formatInteger);
      { FractionVerbatim("12", "", formatInteger); }
      IntegerDisplay("12", formatInteger) + "." + "";
      { DigitsAreNumbers("12"); }
      GroupThousands("12") + "." + "";
    }
  }
}

=== FILE: session.dfy ===
/** A session of key presses. `Step` is the dispatch the button and keyboard
    listeners perform (calculater/script.js, lines 162-206, without the DOM),
    `Run` applies presses in order, and `Inv` is the state invariant every
    run from the initial state keeps. */
module Session {
  import opened JsText
  import opened Validation
  import opened Calculator

  /** The input alphabet: a digit or decimal point, an operator, equals,
      delete and all-clear. */
  datatype Key = Number(c: char) | Operation(op: char) | Equals | Delete | ClearAll

  predicate IsNumberChar(c: char) {
    IsDigit(c) || c == '.'
  }

  /** The keys the buttons and the keyboard listener produce. */
  predicate ValidKey(k: Key) {
    match k
    case Number(c) => IsNumberChar(c)
    case Operation(op) => IsOperator(op)
    case _ => true
  }

  function Step(s: State, k: Key, eval: Evaluator): (r: State)
    ensures k.ClearAll? ==> r == Clear()
    ensures k.Number? ==> !r.hasError
    ensures k.Operation? && !s.hasError ==> r.shouldResetScreen && r.currentInput == Placeholder
  {
    match k
    case Number(c) => AppendNumber(s, c)
    case Operation(op) => ChooseOperation(s, op)
    case Equals => Compute(s, eval)
    case Delete => DeleteNumber(s)
    case ClearAll => Clear()
  }

  /** The presses applied in order, the last one last. */
  function Run(s: State, keys: seq<Key>, eval: Evaluator): State
  {
    if |keys| == 0 then s
    else Step(Run(s, keys[..|keys| - 1], eval), keys[|keys| - 1], eval)
  }

  /** One more press after a run. */
  lemma RunSnoc(s: State, keys: seq<Key>, k: Key, eval: Evaluator)
    ensures Run(s, keys + [k], eval) == Step(Run(s, keys, eval), k, eval)
  {
    assert (keys + [k])[..|keys|] == keys;
  }

  /** Running two sequences of presses one after the other is running their
      concatenation. */
  lemma {:induction false} RunAppend(s: State, a: seq<Key>, b: seq<Key>, eval: Evaluator)
    ensures Run(s, a + b, eval) == Run(Run(s, a, eval), b, eval)
    decreases |b|
  {
    if |b| == 0 {
      assert a + b == a;
    } else {
      assert (a + b)[..|a + b| - 1] == a + b[..|b| - 1];
      RunAppend(s, a, b[..|b| - 1], eval);
    }
  }

  predicate NoWhitespace(t: string) {
    forall i :: 0 <= i < |t| ==> !IsJsWhitespace(t[i])
  }

  predicate AllNumberChars(t: string) {
    forall i :: 0 <= i < |t| ==> IsNumberChar(t[i])
  }

  /** What the evaluator returns on success: the text of a finite double, a
      non-empty text without whitespace and with at most one decimal point,
      never the error sentinel. */
  predicate NumberText(v: string) {
    |v| > 0 && Count(v, '.') <= 1 && NoWhitespace(v) && v != ErrorText
  }

  ghost predicate WellBehaved(eval: Evaluator) {
    forall e :: eval(e).Some? ==> NumberText(eval(e).value)
  }

  /** A committed history: empty, or a non-empty prefix that starts and ends
      with a non-blank character, followed by an operator between single
      spaces. */
  predicate HistoryShape(h: string) {
    h == "" ||
    (&& |h| >= 4
     && !IsJsWhitespace(h[0]) && !IsJsWhitespace(h[|h| - 4])
     && h[|h| - 3] == ' ' && IsOperator(h[|h| - 2]) && h[|h| - 1] == ' ')
  }

  /** The state invariant: the operand is never empty and has at most one
      decimal point; the error flag and the sentinel go together; an operand
      being typed is made of digits and decimal points; the history has its
      committed shape; a pending fresh operand behind a non-empty history is
      the placeholder. */
  predicate Inv(s: State) {
    && |s.currentInput| > 0
    && Count(s.currentInput, '.') <= 1
    && NoWhitespace(s.currentInput)
    && (s.hasError <==> s.currentInput == ErrorText)
    && (!s.hasError && !s.shouldResetScreen ==> AllNumberChars(s.currentInput))
    && HistoryShape(s.expressionHistory)
    && (!s.hasError && s.shouldResetScreen && s.expressionHistory != "" ==>
          s.currentInput == Placeholder)
  }

  lemma ClearInv()
    ensures Inv(Clear())
  {
    assert Count(Placeholder, '.') == 0;
  }

  lemma {:induction false} AllNumberCharsHasNoWhitespaceOrSentinel(t: string)
    requires AllNumberChars(t)
    ensures NoWhitespace(t) && t != ErrorText
  {
    assert !IsNumberChar(ErrorText[0]);
    if |t| > 0 {
      assert IsNumberChar(t[0]);
    }
  }

  lemma AppendInv(s: State, c: char)
    requires Inv(s) && IsNumberChar(c)
    ensures Inv(AppendNumber(s, c))
  {
    var r := AppendNumber(s, c);
    var entry := EntryOperand(s);
    assert AllNumberChars(entry) && Count(entry, '.') <= 1 by {
      if s.hasError {
        PlaceholderOperand();
      } else if s.shouldResetScreen {
        assert entry == "";
      }
    }
    if c == '.' && '.' in entry {
      assert r.currentInput == entry;
    } else if c != '.' && entry == Placeholder {
      assert r.currentInput == "" + [c];
      ExtendOperand("", c);
    } else {
      assert r.currentInput == entry + [c];
      ExtendOperand(entry, c);
    }
    AllNumberCharsHasNoWhitespaceOrSentinel(r.currentInput);
  }

  /** A digit, or a first decimal point, keeps an operand of digits and at
      most one point. */
  lemma ExtendOperand(x: string, c: char)
    requires AllNumberChars(x) && Count(x, '.') <= 1
    requires IsNumberChar(c) && (c == '.' ==> '.' !in x)
    ensures AllNumberChars(x + [c]) && Count(x + [c], '.') <= 1
  {
    CountAppend(x, [c], '.');
    assert Count([c], '.') == (if c == '.' then 1 else 0) by {
      assert [c][1..] == [];
    }
    forall i | 0 <= i < |x + [c]|
      ensures IsNumberChar((x + [c])[i])
    {
      if i < |x| {
        assert (x + [c])[i] == x[i];
      }
    }
  }

  lemma DeleteInv(s: State)
    requires Inv(s)
    ensures Inv(DeleteNumber(s))
  {
    var r := DeleteNumber(s);
    if s.hasError || s.shouldResetScreen {
      ClearInv();
    } else if |s.currentInput| == 1 {
      PlaceholderOperand();
    } else {
      ShortenOperand(s.currentInput, r.currentInput);
    }
  }

  /** Dropping the last character keeps an operand of digits and at most one
      point. */
  lemma ShortenOperand(x: string, y: string)
    requires AllNumberChars(x) && Count(x, '.') <= 1
    requires |x| > 1 && y + [x[|x| - 1]] == x
    ensures |y| > 0 && AllNumberChars(y) && Count(y, '.') <= 1
    ensures NoWhitespace(y) && y != ErrorText
  {
    CountAppend(y, [x[|x| - 1]], '.');
    forall i | 0 <= i < |y|
      ensures IsNumberChar(y[i])
    {
      assert y[i] == x[i];
    }
    AllNumberCharsHasNoWhitespaceOrSentinel(y);
  }

  lemma ChooseInv(s: State, op: char)
    requires Inv(s) && IsOperator(op)
    ensures Inv(ChooseOperation(s, op))
  {
    if !s.hasError {
      var base := if s.shouldResetScreen then "" else s.expressionHistory;
      PlaceholderOperand();
      CommitShape(base, s.currentInput, op);
    }
  }

  /** The placeholder meets every requirement on an operand. */
  lemma PlaceholderOperand()
    ensures Count(Placeholder, '.') == 0 && AllNumberChars(Placeholder)
    ensures NoWhitespace(Placeholder) && Placeholder != ErrorText
  {
    assert IsNumberChar(Placeholder[0]);
    AllNumberCharsHasNoWhitespaceOrSentinel(Placeholder);
  }

  /** Committing a blank-free operand and an operator behind an empty or
      committed history gives a committed history. */
  lemma CommitShape(base: string, x: string, op: char)
    requires base == "" || !IsJsWhitespace(base[0])
    requires |x| > 0 && !IsJsWhitespace(x[0]) && !IsJsWhitespace(x[|x| - 1])
    requires IsOperator(op)
    ensures HistoryShape(base + Segment(x, op))
  {
    var h := base + Segment(x, op);
    assert h[|h| - 4] == x[|x| - 1];
    assert h[0] == (if base == "" then x[0] else base[0]);
  }

  lemma ComputeInv(s: State, eval: Evaluator)
    requires Inv(s) && WellBehaved(eval)
    ensures Inv(Compute(s, eval))
  {
    if !s.hasError {
      var e := AssembleExpression(s);
      if Rejected(e) || eval(e).None? {
        assert Compute(s, eval) == Fail(s);
        FailInv(s);
      } else {
        var v := eval(e).value;
        assert NumberText(v);
        assert Compute(s, eval) == State(v, "", true, false);
      }
    }
  }

  lemma FailInv(s: State)
    requires Inv(s)
    ensures Inv(Fail(s))
  {
    SentinelOperand();
  }

  /** The sentinel has neither a decimal point nor whitespace. */
  lemma SentinelOperand()
    ensures Count(ErrorText, '.') == 0 && NoWhitespace(ErrorText)
  {
    assert '.' !in ErrorText;
    forall i | 0 <= i < |ErrorText|
      ensures !IsJsWhitespace(ErrorText[i])
    {
    }
  }

  /** Every valid press keeps the invariant. */
  lemma StepInv(s: State, k: Key, eval: Evaluator)
    requires Inv(s) && ValidKey(k) && WellBehaved(eval)
    ensures Inv(Step(s, k, eval))
  {
    match k
    case Number(c) => AppendInv(s, c);
    case Operation(op) => ChooseInv(s, op);
    case Equals => ComputeInv(s, eval);
    case Delete => DeleteInv(s);
    case ClearAll => ClearInv();
  }

  /** Every run of valid presses from the initial state, whatever the
      evaluator returns on success, ends in a state satisfying the invariant. */
  lemma {:induction false} RunInv(keys: seq<Key>, eval: Evaluator)
    requires forall i :: 0 <= i < |keys| ==> ValidKey(keys[i])
    requires WellBehaved(eval)
    ensures Inv(Run(Clear(), keys, eval))
  {
    if |keys| == 0 {
      ClearInv();
    } else {
      RunInv(keys[..|keys| - 1], eval);
      StepInv(Run(Clear(), keys[..|keys| - 1], eval), keys[|keys| - 1], eval);
    }
  }
}

=== FILE: typing.dfy ===
/** Operand entry: what a run of digit and decimal-point presses builds, how
    the single-decimal-point guard and the leading-zero rule shape it, and
    how delete takes it back (calculater/script.js, lines 27-53). */
module Typing {
  import opened JsText
  import opened Calculator
  import opened Session

  /** One `Number` press per character, in order. */
  function NumberKeys(w: string): (keys: seq<Key>)
    ensures |keys| == |w|
    ensures forall i :: 0 <= i < |w| ==> keys[i] == Number(w[i])
  {
    if |w| == 0 then [] else NumberKeys(w[..|w| - 1]) + [Number(w[|w| - 1])]
  }

  /** `n` presses of delete. */
  function Deletes(n: nat): (keys: seq<Key>)
    ensures |keys| == n
    ensures Delete !in keys <==> n == 0
  {
    if n == 0 then [] else Deletes(n - 1) + [Delete]
  }

  /** The typed characters without their leading zeros: the removed prefix is
      all zeros and what remains does not start with a zero. */
  function DropLeadingZeros(w: string): (t: string)
    ensures |t| <= |w| && t == w[|w| - |t|..]
    ensures forall i :: 0 <= i < |w| - |t| ==> w[i] == '0'
    ensures t == [] || t[0] != '0'
  {
    if |w| > 0 && w[0] == '0' then DropLeadingZeros(w[1..]) else w
  }

  /** The operand a run of presses `w` builds from the placeholder,
      independently of the transition rules: the typed characters with leading
      zeros suppressed, the placeholder "0" when nothing else is left, and a
      "0" kept in front of a leading decimal point. */
  function TypedOperand(w: string): (o: string)
    ensures |o| > 0
  {
    ShownOperand(DropLeadingZeros(w))
  }

  /** The operand for typed characters without leading zeros. */
  function ShownOperand(t: string): (o: string)
    ensures |o| > 0
  {
    if t == "" then Placeholder else if t[0] == '.' then "0" + t else t
  }

  predicate ValidEntry(w: string) {
    AllNumberChars(w) && Count(w, '.') <= 1
  }

  /** One more character: a character typed behind only zeros starts the
      operand afresh (a zero staying suppressed); otherwise it is kept. */
  lemma {:induction false} DropLeadingZerosSnoc(v: string, c: char)
    ensures DropLeadingZeros(v) == "" ==>
      DropLeadingZeros(v + [c]) == (if c == '0' then "" else [c])
    ensures DropLeadingZeros(v) != "" ==>
      DropLeadingZeros(v + [c]) == DropLeadingZeros(v) + [c]
  {
    if |v| == 0 {
      assert v + [c] == [c];
      assert [c][1..] == [];
    } else if v[0] == '0' {
      var u := v[1..];
      assert (v + [c])[1..] == u + [c];
      assert DropLeadingZeros(v + [c]) == DropLeadingZeros(u + [c]);
      assert DropLeadingZeros(v) == DropLeadingZeros(u);
      DropLeadingZerosSnoc(u, c);
    } else {
      assert (v + [c])[0] != '0';
      assert DropLeadingZeros(v) == v;
    }
  }

  /** A valid entry less its last character is valid, and a point it ends in
      is its only one. */
  lemma ValidEntryPrefix(v: string, c: char)
    requires ValidEntry(v + [c])
    ensures ValidEntry(v) && IsNumberChar(c)
    ensures c == '.' ==> '.' !in v
  {
    CountAppend(v, [c], '.');
    assert forall i :: 0 <= i < |v| ==> v[i] == (v + [c])[i];
    assert (v + [c])[|v|] == c;
  }

  /** Leading-zero suppression never brings in a decimal point. */
  lemma TypedOperandNoPoint(v: string)
    requires '.' !in v
    ensures '.' !in TypedOperand(v)
  {
    var t := DropLeadingZeros(v);
    forall i | 0 <= i < |t|
      ensures t[i] != '.'
    {
      assert t[i] == v[|v| - |t| + i];
    }
    if t == "" {
      assert '.' !in Placeholder;
    } else {
      assert ShownOperand(t) == t;
    }
  }

  /** After only zeros, a point gives "0." and any other character stands
      alone (a zero as the placeholder itself). */
  lemma TypedOperandSnocFromZeros(v: string, c: char)
    requires DropLeadingZeros(v) == ""
    ensures TypedOperand(v) == Placeholder
    ensures c == '.' ==> TypedOperand(v + [c]) == "0."
    ensures c != '.' ==> TypedOperand(v + [c]) == [c]
  {
    DropLeadingZerosSnoc(v, c);
    if c == '0' {
      assert TypedOperand(v + [c]) == ShownOperand("");
    } else {
      assert TypedOperand(v + [c]) == ShownOperand([c]);
      assert [c][0] == c;
    }
  }

  /** Once a character other than a zero has been typed, every further
      character is appended. */
  lemma TypedOperandSnocAfterDigits(v: string, c: char)
    requires DropLeadingZeros(v) != ""
    ensures TypedOperand(v) != Placeholder
    ensures TypedOperand(v + [c]) == TypedOperand(v) + [c]
  {
    DropLeadingZerosSnoc(v, c);
    ShownOperandSnoc(DropLeadingZeros(v), c);
  }

  /** Behind a first character other than a zero, the shown operand grows by
      exactly the typed character. */
  lemma ShownOperandSnoc(t: string, c: char)
    requires t != "" && t[0] != '0'
    ensures ShownOperand(t) != Placeholder
    ensures ShownOperand(t + [c]) == ShownOperand(t) + [c]
  {
    assert (t + [c])[0] == t[0];
    if t[0] == '.' {
      assert "0" + (t + [c]) == ("0" + t) + [c];
    }
  }

  /** `TypedOperand` grows by the same rules `appendNumber` applies: a digit
      replaces the lone placeholder and is appended to anything else, and a
      first decimal point is appended. */
  lemma TypedOperandSnoc(v: string, c: char)
    requires IsNumberChar(c) && (c == '.' ==> '.' !in v)
    ensures '.' !in v ==> '.' !in TypedOperand(v)
    ensures c == '.' ==> TypedOperand(v + [c]) == TypedOperand(v) + "."
    ensures c != '.' && TypedOperand(v) == Placeholder ==> TypedOperand(v + [c]) == [c]
    ensures c != '.' && TypedOperand(v) != Placeholder ==>
      TypedOperand(v + [c]) == TypedOperand(v) + [c]
  {
    if '.' !in v {
      TypedOperandNoPoint(v);
    }
    if DropLeadingZeros(v) == "" {
      TypedOperandSnocFromZeros(v, c);
    } else {
      TypedOperandSnocAfterDigits(v, c);
    }
  }

  /** Typing `w` onto the placeholder of an operand being entered builds
      `TypedOperand(w)` and changes nothing else. */
  lemma {:induction false} TypingFromPlaceholder(s: State, w: string, eval: Evaluator)
    requires !s.hasError && !s.shouldResetScreen && s.currentInput == Placeholder
    requires ValidEntry(w)
    ensures Run(s, NumberKeys(w), eval) == s.(currentInput := TypedOperand(w))
  {
    if |w| == 0 {
      assert DropLeadingZeros(w) == "";
    } else {
      var v, c := w[..|w| - 1], w[|w| - 1];
      assert w == v + [c];
      ValidEntryPrefix(v, c);
      TypingFromPlaceholder(s, v, eval);
      var keys := NumberKeys(w);
      assert keys[..|keys| - 1] == NumberKeys(v);
      var prev := s.(currentInput := TypedOperand(v));
      assert Run(s, keys, eval) == AppendNumber(prev, c);
      TypedOperandSnoc(v, c);
      assert EntryOperand(prev) == TypedOperand(v);
    }
  }

  /** Deleting right after typing `w` is the same as never having typed the
      last character of `w`. */
  lemma TypedOperandDelete(w: string)
    requires |w| > 0
    ensures var o := TypedOperand(w);
      |o| == 1 ==> TypedOperand(w[..|w| - 1]) == Placeholder
    ensures var o := TypedOperand(w);
      |o| > 1 ==> TypedOperand(w[..|w| - 1]) == o[..|o| - 1]
  {
    var v, c := w[..|w| - 1], w[|w| - 1];
    assert w == v + [c];
    if DropLeadingZeros(v) == "" {
      TypedOperandSnocFromZeros(v, c);
      if c == '.' {
        assert "0."[..1] == Placeholder;
      }
    } else {
      TypedOperandSnocAfterDigits(v, c);
      var o := TypedOperand(v);
      assert (o + [c])[..|o|] == o;
    }
  }

  lemma DeleteAfterTyping(s: State, w: string, eval: Evaluator)
    requires !s.hasError && !s.shouldResetScreen && s.currentInput == Placeholder
    requires ValidEntry(w) && |w| > 0
    ensures DeleteNumber(Run(s, NumberKeys(w), eval)) == Run(s, NumberKeys(w[..|w| - 1]), eval)
  {
    var v := w[..|w| - 1];
    assert w == v + [w[|w| - 1]];
    ValidEntryPrefix(v, w[|w| - 1]);
    TypingFromPlaceholder(s, w, eval);
    TypingFromPlaceholder(s, v, eval);
    TypedOperandDelete(w);
    var o := TypedOperand(w);
    var typed := s.(currentInput := o);
    if |o| > 1 {
      assert DropLast(o) == o[..|o| - 1];
      assert DeleteNumber(typed) == s.(currentInput := TypedOperand(v));
    } else {
      assert DeleteNumber(typed) == s.(currentInput := TypedOperand(v));
    }
  }

  /** Any prefix of a valid entry is a valid entry. */
  lemma ValidEntryTake(w: string, k: nat)
    requires ValidEntry(w) && k <= |w|
    ensures ValidEntry(w[..k])
  {
    assert w == w[..k] + w[k..];
    CountAppend(w[..k], w[k..], '.');
  }

  /** One more delete after typing a prefix `u` of an entry. */
  lemma DeleteAfterPrefix(s: State, u: string, eval: Evaluator)
    requires !s.hasError && !s.shouldResetScreen && s.currentInput == Placeholder
    requires ValidEntry(u)
    ensures DeleteNumber(Run(s, NumberKeys(u), eval)) == Run(s, NumberKeys(u[..Kept(|u|, 1)]), eval)
  {
    if |u| > 0 {
      DeleteAfterTyping(s, u, eval);
    } else {
      assert NumberKeys(u) == [];
      assert u[..0] == u;
    }
  }

  /** Pressing delete `n` times after typing `w` gives what typing `w`
      without its last `n` characters gives, down to the placeholder. */
  lemma {:induction false} DeletesUndoTyping(s: State, w: string, n: nat, eval: Evaluator)
    requires !s.hasError && !s.shouldResetScreen && s.currentInput == Placeholder
    requires ValidEntry(w)
    ensures Run(s, NumberKeys(w) + Deletes(n), eval) == Run(s, NumberKeys(w[..Kept(|w|, n)]), eval)
  {
    if n == 0 {
      assert NumberKeys(w) + Deletes(0) == NumberKeys(w);
      assert w[..|w|] == w;
    } else {
      var keep := Kept(|w|, n - 1);
      var u := w[..keep];
      var k := Kept(|w|, n);
      assert |u| == keep && Kept(keep, 1) == k && k <= keep;
      var v := u[..Kept(|u|, 1)];
      assert v == w[..k];
      ValidEntryTake(w, keep);
      calc {
        Run(s, NumberKeys(w) + Deletes(n), eval);
        { RunOneMoreDelete(s, NumberKeys(w), n, eval); }
        DeleteNumber(Run(s, NumberKeys(w) + Deletes(n - 1), eval));
        { DeletesUndoTyping(s, w, n - 1, eval); }
        DeleteNumber(Run(s, NumberKeys(u), eval));
        { DeleteAfterPrefix(s, u, eval); }
        Run(s, NumberKeys(v), eval);
      }
    }
  }

  /** The last of n deletes acts on the state the first n - 1 leave. */
  lemma RunOneMoreDelete(s: State, keys: seq<Key>, n: nat, eval: Evaluator)
    requires n > 0
    ensures Run(s, keys + Deletes(n), eval) == DeleteNumber(Run(s, keys + Deletes(n - 1), eval))
  {
    var all := keys + Deletes(n);
    assert Deletes(n) == Deletes(n - 1) + [Delete];
    assert all == (keys + Deletes(n - 1)) + [Delete];
    RunSnoc(s, keys + Deletes(n - 1), Delete, eval);
  }

  /** How many typed characters survive `n` deletes. */
  function Kept(len: nat, n: nat): nat {
    if n <= len then len - n else 0
  }

  /** The single-decimal-point guard: a decimal point typed into an operand
      that already has one changes nothing. */
  lemma SecondDecimalPointIgnored(s: State)
    requires !s.hasError && !s.shouldResetScreen && '.' in s.currentInput
    ensures AppendNumber(s, '.') == s
  {
  }

  /** Hence a decimal point press is idempotent from any state. */
  lemma DecimalPointIdempotent(s: State)
    ensures AppendNumber(AppendNumber(s, '.'), '.') == AppendNumber(s, '.')
  {
    var r := AppendNumber(s, '.');
    assert '.' in EntryOperand(s) + ".";
    assert '.' in r.currentInput;
    SecondDecimalPointIgnored(r);
  }

  /** A digit or decimal point typed in the error state first clears
      everything, then is typed onto the placeholder; the error is gone. */
  lemma AppendAfterError(s: State, c: char)
    requires s.hasError
    ensures AppendNumber(s, c) == AppendNumber(Clear(), c)
    ensures !AppendNumber(s, c).hasError && AppendNumber(s, c).expressionHistory == ""
  {
  }

  /** A fresh operand pending after an operator or a result is replaced by
      the typed character, with no leading "0" even for a decimal point; the
      history is kept. */
  lemma FreshOperandAfterReset(s: State, c: char)
    requires !s.hasError && s.shouldResetScreen
    ensures AppendNumber(s, c) == s.(currentInput := [c], shouldResetScreen := false)
  {
    assert EntryOperand(s) == "";
  }
}

=== FILE: validation.dfy ===
/** The two regular-expression guards `compute` applies to the assembled
    expression before handing it to the evaluator (calculater/script.js,
    lines 98 and 105). */
module Validation {
  import opened JsText

  /** `/\/ 0(?!\.)/` matches at position `i`: a slash, a space and a zero,
      with no decimal point right after the zero. */
  predicate DivisionByZeroAt(e: string, i: int) {
    && 0 <= i && i + 3 <= |e|
    && e[i] == '/' && e[i + 1] == ' ' && e[i + 2] == '0'
    && (i + 3 == |e| || e[i + 3] != '.')
  }

  /** `/\/ 0(?!\.)/.test(e)` from position `from` on: the regex engine tries
      every start position in turn. */
  function ScanDivisionByZero(e: string, from: nat): (found: bool)
    requires from <= |e|
    ensures found <==> exists i :: from <= i && DivisionByZeroAt(e, i)
    decreases |e| - from
  {
    if |e| - from < 3 then false
    else DivisionByZeroAt(e, from) || ScanDivisionByZero(e, from + 1)
  }

  /** `/\/ 0$/.test(e)`: the expression ends with a slash, a space and a zero. */
  predicate EndsWithDivisionByZero(e: string) {
    |e| >= 3 && e[|e| - 3..] == "/ 0"
  }

  /** The division-by-zero guard of `compute`, both regexes as written. */
  predicate DivisionByZero(e: string) {
    ScanDivisionByZero(e, 0) || EndsWithDivisionByZero(e)
  }

  /** The second regex is implied by the first: a trailing "/ 0" has nothing
      after its zero, so the look-ahead is satisfied. The guard is therefore
      exactly "some slash-space-zero is not followed by a decimal point". */
  lemma DivisionByZeroIff(e: string)
    ensures DivisionByZero(e) <==> exists i :: DivisionByZeroAt(e, i)
  {
    if EndsWithDivisionByZero(e) {
      var i := |e| - 3;
      assert e[i..][0] == e[i] && e[i..][1] == e[i + 1] && e[i..][2] == e[i + 2];
      assert DivisionByZeroAt(e, i);
    }
  }

  /** One of the five operators the calculator offers. */
  predicate IsOperator(c: char) {
    c == '+' || c == '-' || c == '*' || c == '/' || c == '%'
  }

  /** A character the invalid-input regex of line 105 accepts: a digit, a
      decimal point, one of the five operators or a space. */
  predicate AllowedChar(c: char) {
    IsDigit(c) || c == '.' || IsOperator(c) || c == ' '
  }

  /** The invalid-input regex of line 105 tested from position `from` on: it
      matches exactly when some character there is not `AllowedChar`. */
  function ScanDisallowed(e: string, from: nat): (found: bool)
    requires from <= |e|
    ensures found <==> exists i :: from <= i < |e| && !AllowedChar(e[i])
    decreases |e| - from
  {
    if from == |e| then false
    else !AllowedChar(e[from]) || ScanDisallowed(e, from + 1)
  }

  /** The invalid-input guard of `compute`. */
  predicate HasDisallowedChar(e: string) {
    ScanDisallowed(e, 0)
  }

  /** An expression without a slash passes the division-by-zero guard. */
  lemma NoSlashNoDivisionByZero(e: string)
    requires '/' !in e
    ensures !DivisionByZero(e)
  {
    DivisionByZeroIff(e);
  }

  /** An expression of allowed characters only passes the invalid-input
      guard. */
  lemma AllAllowedPasses(e: string)
    requires forall i :: 0 <= i < |e| ==> AllowedChar(e[i])
    ensures !HasDisallowedChar(e)
  {
  }

  /** Either guard throws, which `compute` turns into the error state. */
  predicate Rejected(e: string) {
    DivisionByZero(e) || HasDisallowedChar(e)
  }
}

=== FILE: wrappers.dfy ===
/** The optional value the calculator's abstract evaluator returns: Some
    result text, or None when evaluation fails. */
module Wrappers {

  datatype Option<+T> = None | Some(value: T)
}
